=== FILE: README.md ===
# Clinic backend: QPoints, the redemption ledger, the service catalog and the error table

A Dafny model of four pieces of a clinic operations backend:

- **QPoints** (`RedeemService`, `redeem_service.dfy`). A user earns one point per
  500 of spend on doctors and services. Each redemption costs 8 points.
  `getQPoints` reports the floored earnings minus 8 per ledger row of the user,
  without clamping at zero. `redeem` compares the *unfloored* quotient, less the
  points already redeemed, against 8. If the balance covers it, `redeem` appends one
  ledger row carrying the user, booking and service ids. `getUserList` lists each
  redeeming user together with the points they have earned.
- **The redemption ledger** (`RedeemRepository`, `redeem_repository.dfy`). This is the
  `redeem` table as an append-only `seq`. It supports saving a row, the rows of one
  user, all rows, and the distinct user ids. Any driver failure is reported as
  DATABASE_ERROR.
- **The service catalog** (`SettingService`, `setting_service.dfy`). The listings
  join services to a category map and silently drop a service whose category is
  missing. `update` is a field-wise patch: a field changes only when its argument
  is defined. `create` checks the category first. Every failure reaches the caller
  as INTERNAL_SERVER_ERROR, provided the rollback in the catch succeeds.
- **The error table** (`Errors`, `errors.dfy`). This is the `ERRORS` table of
  `RequestError(message, code, statusCode)` values. The module also models what a
  `throw` carries and the services' catch: a `RequestError` passes through, and
  anything else becomes INTERNAL_SERVER_ERROR. The `RequestError` constructor is the
  datatype constructor, so it stores message, code and status unchanged.

Two behaviours of the code are kept as written:

- The QPoint balance is not clamped at zero (`BalanceCanBeNegative`).
- The spend totals are whatever the booking queries return. The model does not
  decide which booking statuses count towards spend.

Collaborators outside the modelled files enter as parameters:

- The spend queries (`getTotalSpendByUserOnDoctor` and `getTotalSpendByUserOnService`)
  enter as `Reply<nat>` values: a number, or a thrown value.
- The user lookup `getUserById` (src/repository/user.ts:45-59) is a map from user id
  to the user row's properties. A missing id throws USER_NOT_FOUND, as there.
- The per-user booking figures enter as a function from user id to a reply.
- The branch table and the branch-service join query enter as a set of ids and a
  sequence of rows.
- The id the database assigns to a new ledger row enters as `insertId`.
- A broken database connection is the value `Broken`.

## Model

| member | source | states |
|---|---|---|
| `Errors.Entry` | src/utils/error.ts:40-58 | The table has exactly the sixteen common and user-flow names. Every status is one of 400, 401, 403, 404, 500. Status 500 belongs to exactly DATABASE_ERROR, UNHANDLED_ERROR, CONNOT_DETERMINE_TIME and INTERNAL_SERVER_ERROR. 401 belongs to exactly the two auth errors, 403 to ADMIN_ONLY_ROUTE and 404 to USER_NOT_FOUND. Codes 10001-10009 are exactly the common errors and 20001-20007 exactly the user-flow errors. |
| `Errors.CodesDistinct` | src/utils/error.ts:40-58 | Two different table entries never share a code. |
| `Errors.CodePrefixClassifies` | src/utils/error.ts:18-58 | The leading digit of an entry's code is 1 exactly for common errors and 2 exactly for user-flow errors. |
| `Errors.ThrowName` | src/services/redeem.ts:44 | `throw ERRORS.X` throws a `RequestError` exactly when the table defines X. Otherwise it throws `undefined`. |
| `Errors.Rethrow` | src/services/redeem.ts:48-53 | A thrown table entry reaches the caller unchanged. Anything else becomes INTERNAL_SERVER_ERROR. |
| `Errors.ThrownNameReachesCaller` | src/services/redeem.ts:43-53 | A name thrown through `ERRORS` reaches the caller exactly when the table defines it. A missing name surfaces as INTERNAL_SERVER_ERROR. |
| `Errors.CatchYieldsTableEntry` | src/services/redeem.ts:48-53 | Whatever producible value is thrown, the catch hands the caller an entry of the table. |
| `Errors.CatchAll` | src/services/service.ts:41-43 | The blanket catch keeps a success and turns every failure into INTERNAL_SERVER_ERROR. |
| `RedeemRepository.Query` | src/repository/redeem.ts:14-16 | A repository query succeeds exactly on a live connection. Its only failure is DATABASE_ERROR. |
| `RedeemRepository.ByUser` | src/repository/redeem.ts:20-23 | A row is returned exactly when it is in the ledger and belongs to the user. |
| `RedeemRepository.DistinctUsers` | src/repository/redeem.ts:40-43 | Each user id of the ledger appears once, and no other id appears. |
| `RedeemRepository.SaveRedeem` | src/repository/redeem.ts:9-18 | The save succeeds exactly on a live connection with an id that no row uses yet, as the primary key demands. On success the ledger becomes the old ledger plus one row carrying the assigned id and the given user, booking and service ids, and that row is returned. Unique ids stay unique. The only failure is DATABASE_ERROR. |
| `RedeemRepository.AlreadyRedeemedByUser` | src/repository/redeem.ts:20-28 | On success, the user's ledger rows in ledger order, so their number is the user's redemption count. The only failure is DATABASE_ERROR. |
| `RedeemRepository.GetAllRedeems` | src/repository/redeem.ts:30-38 | On success, the whole ledger. The only failure is DATABASE_ERROR. |
| `RedeemRepository.GetAllUsers` | src/repository/redeem.ts:40-48 | On success, every ledger user id exactly once and no other id. The only failure is DATABASE_ERROR. |
| `RedeemRepository.SaveTouchesOnlyItsUser` | src/repository/redeem.ts:9-23 | Saving for user A adds exactly the new row to A's rows. Every other user's rows are unchanged. |
| `RedeemRepository.ByUserAppend` | src/repository/redeem.ts:20-23 | The per-user filter distributes over concatenation, so it keeps ledger order. |
| `RedeemRepository.SaveAll` | src/repository/redeem.ts:9-13 | Saving n requests grows the ledger by at most n rows, keeps the earlier rows as a prefix, and keeps ids unique. |
| `RedeemRepository.RowsCountSaves` | src/repository/redeem.ts:9-33 | Starting from an empty ledger, with the database handing out distinct ids, every save succeeds. A user's row count equals the number of saves for that user, the ledger has one row per save, row i carries the i-th assigned id, and ids are unique. |
| `RedeemService.EarnedPoints` | src/services/redeem.ts:71-72 | The earned points p satisfy 500·p ≤ spend < 500·(p+1), so p is the floor of spend/500. |
| `RedeemService.GuardAgreesWithBalance` | src/services/redeem.ts:39-74 | For every spend and redemption count, the unfloored guard of `redeem` rejects exactly when the floored `getQPoints` balance is below 8. |
| `RedeemService.GetQPoints` | src/services/redeem.ts:61-82 | On success the result is (doctor + service spend)/500, floored, minus 8 per ledger row of the user. It succeeds exactly when the connection and both spend queries do. A broken connection gives DATABASE_ERROR. A throw from the doctor-spend query, or from the service-spend query after the doctor-spend query answered, passes through the catch. |
| `RedeemService.GuardDecidesCanRedeem` | src/services/redeem.ts:39-43 | When both spend queries answer, the guard rejects exactly when the floored balance does not cover one redemption. |
| `RedeemService.RedeemAsWritten` | src/services/redeem.ts:30-59 | As written, the call succeeds exactly when the balance covers 8 points. A rejection by the guard reaches the caller as INTERNAL_SERVER_ERROR. |
| `RedeemService.UnawaitedSave` | src/services/redeem.ts:47 | The save that `redeem` does not await adds exactly the new row when its id is unused. Otherwise the insert fails unseen and the ledger is unchanged. |
| `RedeemService.Redeem` | src/services/redeem.ts:30-59 | The call succeeds exactly on a live connection when the floored balance is at least 8. Success appends exactly one row with the given ids when the assigned id is unused, and otherwise leaves the ledger unchanged. Unique ids stay unique. A rejection is INSUFFICIENT_QPOINTS. A broken connection gives DATABASE_ERROR, because the ledger query runs first. A throw from the doctor-spend query, or from the service-spend query after the doctor-spend query answered, passes through the catch. |
| `RedeemService.InsufficientReportedAsInternal` | src/services/redeem.ts:43-53 | For every input the guard rejects, the code as written answers INTERNAL_SERVER_ERROR and the corrected flow answers INSUFFICIENT_QPOINTS. |
| `RedeemService.AsWrittenAgreesElsewhere` | src/services/redeem.ts:30-53 | Apart from the rejection, the code as written and the corrected flow return the same result. |
| `RedeemService.RejectionIsInsufficientExactly` | src/services/redeem.ts:30-53 | With producible throws, the corrected `redeem` answers INSUFFICIENT_QPOINTS exactly when the connection is live, both spend queries answer and the unfloored guard rejects. |
| `RedeemService.CallerSeesTableEntries` | src/services/redeem.ts:30-83 | When the spend queries throw only values the code can produce, every error of `getQPoints` and of `redeem` as written is an entry of the table. The corrected `redeem` adds only INSUFFICIENT_QPOINTS. |
| `RedeemService.RedeemCostsEightPoints` | src/services/redeem.ts:34-74 | After a successful redemption with spend unchanged, that user's `getQPoints` drops by exactly 8 when the save's id was unused, and by nothing when the save was lost. Every other user's balance is unchanged. |
| `RedeemService.RedeemIgnoresBookingAndService` | src/services/redeem.ts:30-47 | Whether `redeem` succeeds, and which error it returns, does not depend on the booking or service id. |
| `RedeemService.BalanceCanBeNegative` | src/services/redeem.ts:72-75 | The balance is not clamped: one redemption with no spend gives -8. |
| `RedeemService.EarnedPointsMonotone` | src/services/redeem.ts:71-72 | More spend never earns fewer points. |
| `RedeemService.StepKeepsBalanceNonNegative` | src/services/redeem.ts:40-47 | A spend increase or a guarded redemption keeps every user's balance non-negative. |
| `RedeemService.RunKeepsBalanceNonNegative` | src/services/redeem.ts:40-75 | Over any history in which spend only grows and every ledger row passed the guard, no `getQPoints` balance is ever negative. |
| `RedeemService.FreshClinicNeverNegative` | src/services/redeem.ts:40-75 | Starting from no spend and an empty ledger, every reachable balance is non-negative. |
| `RedeemService.Summaries` | src/services/redeem.ts:110-125 | There is one entry per user id, in order. Each entry carries the `name` and `branch_name` properties read off the user row (possibly `undefined`) and the visit count. `stampsCollected` is the floored earnings with redemptions not subtracted. The loop fails at the first user it cannot finish: a user missing from the user table gives USER_NOT_FOUND, unchanged, and a throw from that user's booking queries passes through the catch. |
| `RedeemService.GetUserList` | src/services/redeem.ts:104-139 | A broken connection gives DATABASE_ERROR. On a live connection the result is the per-user loop over the distinct ledger users, with its entries and its errors. The list has one entry per distinct ledger user, in the order the ledger returns them, and covers exactly the users that appear in the ledger. |
| `RedeemService.StampsIgnoreRedemptions` | src/services/redeem.ts:116-122 | An entry's `stampsCollected` minus 8 per ledger row of that user equals that user's `getQPoints` balance. |
| `SettingService.CategoryMap` | src/services/service.ts:27-30 | The map's keys are exactly the category ids in the table, and each key maps to a row with that id. |
| `SettingService.FindCategory` | src/repository/service.ts:80-94 | The lookup finds a row exactly when the table has that id, and the row it returns has that id. |
| `SettingService.FindService` | src/repository/service.ts:22-36 | The lookup finds a row exactly when some service has that id, and the row it returns has that id. |
| `SettingService.CategoryMapAgreesWithLookup` | src/services/service.ts:27-34 | With primary-key ids, the map built in `getAll` and the lookup by id give the same category. |
| `SettingService.Join` | src/services/service.ts:31-39 | Every view pairs an input service with its mapped category, and every service whose category is known gets such a view. The output is no longer than the input. |
| `SettingService.JoinAppend` | src/services/service.ts:32-39 | The join distributes over concatenation, so views come out in service order. |
| `SettingService.JoinKeepsAllKnown` | src/services/service.ts:32-39 | When every category is known, nothing is dropped: view i is service i with its category. |
| `SettingService.AssembleViews` | src/services/service.ts:21-40 | The source's loops compute exactly the join: the map built by `forEach`, then the `continue` on a missing category. |
| `SettingService.GetAll` | src/services/service.ts:21-49 | The listing is the join of the services with the category map, in service order: exactly the services whose category exists, each paired with that category. A failure is INTERNAL_SERVER_ERROR. |
| `SettingService.GetServicesForBranch` | src/services/service.ts:248-280 | An unknown branch fails. Otherwise the listing is the join of the branch's rows, in their order, with the same filter-and-pair rule. Every failure is INTERNAL_SERVER_ERROR. |
| `SettingService.Redeemable` | src/repository/service.ts:240-250 | The result holds exactly the services marked redeemable. |
| `SettingService.GetRedeemableServices` | src/services/service.ts:309-337 | The listing is the join of the redeemable services, in table order: exactly the redeemable services whose category exists, each with that category, and no more views than services. A failure is INTERNAL_SERVER_ERROR. |
| `SettingService.JoinRedeemable` | src/services/service.ts:309-337 | Keeping the redeemable services before the join or keeping the redeemable views after it gives the same sequence. |
| `SettingService.RedeemableIsFilteredGetAll` | src/services/service.ts:21-49 | The redeemable listing is the `getAll` listing with only the redeemable services kept, in the same order. |
| `SettingService.InCategory` | src/repository/service.ts:125-136 | The result holds exactly the services of the category. |
| `SettingService.GetAllByCategory` | src/services/service.ts:140-163 | An unknown category fails with INTERNAL_SERVER_ERROR. Otherwise every service of the category gets a view with that one category, in order, and none is dropped. |
| `SettingService.ByCategoryIsFilteredGetAll` | src/services/service.ts:140-163 | With primary-key ids, listing one category gives the same views as the `getAll` join restricted to that category's services. |
| `SettingService.GetAvailableTimeSlots` | src/services/service.ts:204-223 | The result is empty whatever the service and date. |
| `SettingService.ApplyPatch` | src/services/service.ts:82-111 | Each field takes its argument when that is defined and keeps the stored value otherwise. The id never changes. |
| `SettingService.PatchLaws` | src/services/service.ts:82-111 | An all-undefined patch is the identity. A patch applied twice equals one application. Two patches in a row equal their combination. |
| `SettingService.ReplaceById` | src/repository/service.ts:111-123 | Rows with the id become the new row. All other rows and the length are unchanged. |
| `SettingService.Update` | src/services/service.ts:74-138 | The reply succeeds exactly when the service exists and its resulting category exists. A defined but unknown `category_id` fails. The row is written exactly when the service exists and any given `category_id` is known: the stored row becomes the patched row, other services are unchanged, and the write stands even when building the view then fails, because the rollback has no transaction to undo. Otherwise the catalog is unchanged. Categories never change. On success the view is the patched row with the category row the lookup returned. Every failure is INTERNAL_SERVER_ERROR. |
| `SettingService.EmptyUpdateChangesNothing` | src/services/service.ts:82-130 | With every argument undefined, a successful reply returns the stored service. With primary-key ids, the catalog is unchanged whether or not the call succeeds. |
| `SettingService.FreshId` | src/repository/service.ts:96-100 | A new row's id is larger than every existing id. |
| `SettingService.Create` | src/services/service.ts:51-72 | The call succeeds exactly when the category exists. It then appends the draft under a fresh id and returns it with its category. Every failure is INTERNAL_SERVER_ERROR. |
| `SettingService.CreateThenGetAll` | src/services/service.ts:21-72 | After `create`, `getAll` returns the old listing followed by the created view. |

## Left out

- The booking lifecycle (book, cancel, complete, reschedule, slot exclusivity, capacity) is left out. `src/services/booking.ts` defines only a constructor, and `src/repository/booking.ts` holds only a stub, so there is no behaviour to model.
- The spend queries `getTotalSpendByUserOnDoctor` and `getTotalSpendByUserOnService` and the visit-count query `getVisitCountByUser` are left out. src/repository/booking.ts does not define them. Their results are inputs (`Reply<nat>`, `Activity`).
- `getBranchById` is left out: src/repository/branch.ts does not define it. The branch check is membership in a set of branch ids. The branch-service join query is an input sequence of rows. That query (src/repository/service.ts:230) reads a table named `branch_service`, while `addServiceToBranch` writes `service_branch` (:201) and every other query reads `service_branch`. So the rows it returns need not be the services added through `addServiceToBranch`; no table declaration in src settles which name is right.
- `createServiceView` is taken to pair a service with its category; its field mapping is left out. A view is the pair of a service and its category.
- `SettingService.Update`: when `category_id` is undefined and the stored category row has vanished, the source writes the row and then builds the view from `undefined`. The model keeps the write and answers INTERNAL_SERVER_ERROR, on the assumption that building the view from `undefined` throws.
- `RedeemRepository.SaveRedeem`: the id of a new row is the one the database assigns (`insertId`), and it enters as a parameter. The table declaration in src/models/redeem.ts gives `id` no AUTO_INCREMENT, so the model promises only that a saved row's id is unused; an id already in use fails as a primary-key violation.
- Connection pooling, `release` and the missing `release` in `getQPoints` are left out as resource plumbing.
- `SettingService.Update` assumes the `await connection.rollback()` of the catch (src/services/service.ts:128-130) succeeds. On a connection where every query throws, the rollback throws too, and that driver error would reach the caller in place of INTERNAL_SERVER_ERROR.
- `SettingService.Create` makes the same assumption about its rollback (src/services/service.ts:62-64).
- `SettingService.FreshId` stands for the id the database gives a new service row. It assumes an auto-increment key larger than every existing id.
- The save in `redeem` is not awaited, so a failing save does not reach the caller (`UnawaitedSave`). The model takes the save to run on the connection the earlier query used, so an unused id is its only way to fail. What the unhandled rejection of a failed save does to the process is left out.
- `RedeemService.RunKeepsBalanceNonNegative` assumes redemptions run one at a time. `redeem` reads the ledger, checks the balance and then appends, with no transaction or lock (src/services/redeem.ts:34-47). Two concurrent calls can both pass the guard on the same balance and drive it below zero.
- `RedeemService.Summaries` carries `name` and `branch_name` as whatever the user row holds, possibly `undefined`. The user rows written in src/repository/user.ts store the name as `full_name`, no `branch_name` property appears anywhere else in src, and the user insert at src/repository/user.ts:36 writes no branch. So both values are likely `undefined`; the model carries them as optional values.
- The positional argument mismatch between `SettingService.create`/`update` and `ServiceRepository.create`/`update` is left out. It is a type-level bug in the SQL plumbing, and the model stores every field under its own name.
- JavaScript number arithmetic is not modelled. Spend totals are unbounded naturals, and `redeem`'s division is exact real division. Rounding of very large totals and fractional prices are not represented.
- `SELECT DISTINCT user_id` has no `ORDER BY`, so its row order is unspecified. The model fixes it as first appearance in the ledger.
- `RedeemService.Summaries`: the three booking queries for a user are one `Reply<Activity>`. Which of them failed first is not distinguished.
- `RedeemService.getAllRedeems` is a pass-through over `RedeemRepository.GetAllRedeems`. Its DATABASE_ERROR passes through the catch (`Errors.Rethrow`), so it has no separate member.
- `createCategory`, `getTimeSlots`, `createServiceTimeSlot` and `addServiceToBranch` (src/services/service.ts, over the queries at src/repository/service.ts:138-211) are left out. They lie outside the catalog views and the patch update this model covers.
- Controllers, request schemas, authentication, OTP/SMS, uploads and the other repositories and services are left out. They are HTTP wiring and foreign calls.
- Integer widths are not modelled: ids, prices and counts are unbounded `int`/`nat`, and none of the modelled arithmetic wraps.

## Findings

| source | as written | input that shows it | evidently intended | confidence | as-written member | corrected member |
|---|---|---|---|---|---|---|
| src/services/redeem.ts:43-44 | `throw ERRORS.INSUFFICIENT_QPOINTS`, but the `ERRORS` table (src/utils/error.ts:40-58) has no such entry. The thrown value is `undefined`, which is not a `RequestError`, so the catch at lines 48-53 turns it into INTERNAL_SERVER_ERROR (10008, HTTP 500). | A user with no spend and no redemptions calls `redeem`. | The rejection reaches the caller as INSUFFICIENT_QPOINTS, a domain error distinct from an internal one. | medium, not executed (a strict TypeScript compile would reject the missing property) | `RedeemService.InsufficientReportedAsInternal` | `RedeemService.Redeem` |

=== FILE: errors.dfy ===
/**
  The error vocabulary of the clinic backend: the `RequestError` record, the
  constant `ERRORS` table of (message, code, HTTP status) entries, the values a
  JavaScript `throw` can carry, and the catch discipline the services apply
  (`RequestError` values pass through, anything else becomes
  INTERNAL_SERVER_ERROR).
 */
module Errors {

  /** A `RequestError`: the constructor stores message, code and status as given. */
  datatype RequestError = RequestError(message: string, code: int, statusCode: int)

  /** Every `ERRORS.<NAME>` the services refer to. The first sixteen are the keys of
      the table; the last four are referenced by the services but have no entry
      in it (spellings follow the source: AUTH_UNAUTHERISED, CONNOT_DETERMINE_TIME). */
  datatype ErrorName =
    | DatabaseError
    | InvalidRequestBody
    | InvalidQueryParameter
    | AuthNoTokenFound
    | AuthUnautherised
    | UnhandledError
    | ConnotDetermineTime
    | InternalServerError
    | AdminOnlyRoute
    | EmailAlreadyExists
    | PhoneAlreadyExists
    | NationalIdAlreadyExists
    | InvalidOtp
    | InvalidRefreshToken
    | InvalidAuthToken
    | UserNotFound
    | InsufficientQPoints
    | ServiceNotFound
    | InvalidServiceCategory
    | BranchNotFound

  datatype Option<T> = None | Some(value: T)

  /** Result of a modelled service or repository call. */
  datatype Result<T> = Ok(value: T) | Err(error: ErrorName)

  /** The value a `throw` carries: an entry of the table, or anything else
      (a driver exception, a TypeError, or `undefined`). */
  datatype Thrown = Raised(name: ErrorName) | Foreign

  /** What a collaborator outside this model hands back: a value, or a throw. */
  datatype Reply<T> = Returns(value: T) | Throws(thrown: Thrown)

  /** A thrown value the code can actually produce: a `RequestError` can only
      come from the table, so a `Raised` name is one the table defines. */
  predicate Throwable(t: Thrown) {
    t.Raised? ==> InTable(t.name)
  }

  /** A collaborator reply whose throw, if any, is one the code can produce. */
  predicate WellFormed<T>(r: Reply<T>) {
    r.Throws? ==> Throwable(r.thrown)
  }

  /** The database connection the repositories query through; on a broken one
      every query throws a driver error. */
  datatype Connection = Live | Broken

  /** The area a code belongs to: codes starting with 1 are common to all
      services, codes starting with 2 belong to the user flow. */
  datatype Area = Common | UserFlow

  /** The table keys of the common area, in table order. */
  predicate IsCommon(n: ErrorName) {
    n in {DatabaseError, InvalidRequestBody, InvalidQueryParameter, AuthNoTokenFound,
          AuthUnautherised, UnhandledError, ConnotDetermineTime, InternalServerError,
          AdminOnlyRoute}
  }

  /** The table keys of the user-flow area, in table order. */
  predicate IsUserFlow(n: ErrorName) {
    n in {EmailAlreadyExists, PhoneAlreadyExists, NationalIdAlreadyExists, InvalidOtp,
          InvalidRefreshToken, InvalidAuthToken, UserNotFound}
  }

  /** The `ERRORS` table: `ERRORS.<name>`, which is `undefined` for a name it lacks. */
  function Entry(n: ErrorName): (e: Option<RequestError>)
    ensures e.Some? <==> IsCommon(n) || IsUserFlow(n)
    ensures e.Some? ==> e.value.statusCode in {400, 401, 403, 404, 500}
    ensures e.Some? ==> (e.value.statusCode == 500 <==>
                           n in {DatabaseError, UnhandledError, ConnotDetermineTime, InternalServerError})
    ensures e.Some? ==> (e.value.statusCode == 401 <==> n in {AuthNoTokenFound, AuthUnautherised})
    ensures e.Some? ==> (e.value.statusCode == 403 <==> n == AdminOnlyRoute)
    ensures e.Some? ==> (e.value.statusCode == 404 <==> n == UserNotFound)
    ensures e.Some? ==> (10001 <= e.value.code <= 10009 <==> IsCommon(n))
    ensures e.Some? ==> (20001 <= e.value.code <= 20007 <==> IsUserFlow(n))
  {
    match n
    case DatabaseError => Some(RequestError("DATABASE ERROR", 10001, 500))
    case InvalidRequestBody => Some(RequestError("invalid request body", 10002, 400))
    case InvalidQueryParameter => Some(RequestError("invalid query body", 10003, 400))
    case AuthNoTokenFound => Some(RequestError("No token found", 10004, 401))
    case AuthUnautherised => Some(RequestError("UNAUTHERISED", 10005, 401))
    case UnhandledError => Some(RequestError("Some unhandled error occured at server", 10006, 500))
    case ConnotDetermineTime => Some(RequestError("Some unhandled error occured at server", 10007, 500))
    case InternalServerError => Some(RequestError("Internal server error", 10008, 500))
    case AdminOnlyRoute => Some(RequestError("Only admin is allowed to access this route", 10009, 403))
    case EmailAlreadyExists => Some(RequestError("Email already exists", 20001, 400))
    case PhoneAlreadyExists => Some(RequestError("Phone already exists", 20002, 400))
    case NationalIdAlreadyExists => Some(RequestError("National ID already exists", 20003, 400))
    case InvalidOtp => Some(RequestError("Invalid OTP", 20004, 400))
    case InvalidRefreshToken => Some(RequestError("Invalid refresh token", 20006, 400))
    case InvalidAuthToken => Some(RequestError("Invalid auth token", 20005, 400))
    case UserNotFound => Some(RequestError("User not found", 20007, 404))
    case InsufficientQPoints => None
    case ServiceNotFound => None
    case InvalidServiceCategory => None
    case BranchNotFound => None
  }

  predicate InTable(n: ErrorName) {
    Entry(n).Some?
  }

  /** The area a table entry's code announces by its leading digit. */
  function CodeArea(code: int): Area {
    if code / 10000 == 1 then Common else UserFlow
  }

  /** No two table entries share a code, so a code identifies its entry. */
  lemma CodesDistinct(a: ErrorName, b: ErrorName)
    requires InTable(a) && InTable(b)
    requires a != b
    ensures Entry(a).value.code != Entry(b).value.code
  {
  }

  /** The leading digit of an entry's code names its area. */
  lemma CodePrefixClassifies(n: ErrorName)
    requires InTable(n)
    ensures CodeArea(Entry(n).value.code) == Common <==> IsCommon(n)
    ensures CodeArea(Entry(n).value.code) == UserFlow <==> IsUserFlow(n)
  {
  }

  /** `throw ERRORS.<n>`: the entry when the table has one, otherwise the
      thrown value is `undefined`, which is not a `RequestError`. */
  function ThrowName(n: ErrorName): (t: Thrown)
    ensures t.Raised? <==> InTable(n)
    ensures t.Raised? ==> t.name == n
  {
    if InTable(n) then Raised(n) else Foreign
  }

  /** The services' catch: `e instanceof RequestError ? e : INTERNAL_SERVER_ERROR`. */
  function Rethrow(t: Thrown): (e: ErrorName)
    ensures t.Raised? ==> e == t.name
    ensures t == Foreign ==> e == InternalServerError
  {
    match t
    case Raised(n) => n
    case Foreign => InternalServerError
  }

  /** A name thrown through `ERRORS` reaches the caller unchanged exactly when
      the table defines it; otherwise the caller sees INTERNAL_SERVER_ERROR. */
  lemma ThrownNameReachesCaller(n: ErrorName)
    ensures Rethrow(ThrowName(n)) == n <==> InTable(n)
    ensures !InTable(n) ==> Rethrow(ThrowName(n)) == InternalServerError
  {
  }

  /** Whatever a producible throw is, the caller of a service sees an entry of
      the table: the catch lets only `RequestError` values through. */
  lemma CatchYieldsTableEntry(t: Thrown)
    requires Throwable(t)
    ensures InTable(Rethrow(t))
  {
  }

  /** A blanket catch (`catch { throw ERRORS.INTERNAL_SERVER_ERROR }`): any
      failure reaches the caller as INTERNAL_SERVER_ERROR, a success as is. */
  function CatchAll<T>(r: Result<T>): (c: Result<T>)
    ensures r.Ok? ==> c == r
    ensures r.Err? ==> c == Err(InternalServerError)
  {
    if r.Ok? then r else Err(InternalServerError)
  }
}

=== FILE: redeem_repository.dfy ===
/**
  The redemption ledger: the `redeem` table, which rows only ever join. Each
  repository call is a query over the ledger through a connection; any driver
  failure is reported as DATABASE_ERROR.
 */
module RedeemRepository {
  import opened Errors

  type UserId = int

  /** One row of the `redeem` table. */
  datatype RedeemRecord = RedeemRecord(id: int, userId: UserId, bookingId: int, serviceId: int)

  /** The whole table, in insertion order. */
  type Ledger = seq<RedeemRecord>

  /** `id` is the primary key: no two rows share one. */
  predicate UniqueIds(ledger: Ledger) {
    forall i, j :: 0 <= i < j < |ledger| ==> ledger[i].id != ledger[j].id
  }

  /** No row of the ledger carries `id`. */
  predicate Fresh(ledger: Ledger, id: int) {
    forall row :: row in ledger ==> row.id != id
  }

  /** Some row of the ledger belongs to `u`. */
  predicate Mentions(ledger: Ledger, u: UserId) {
    exists i :: 0 <= i < |ledger| && ledger[i].userId == u
  }

  predicate NoDuplicates<T(==)>(s: seq<T>) {
    forall i, j :: 0 <= i < j < |s| ==> s[i] != s[j]
  }

  /** The rows of `u`, in ledger order (`WHERE user_id = ?`). */
  function ByUser(ledger: Ledger, u: UserId): (rows: Ledger)
    ensures |rows| <= |ledger|
    ensures forall row :: row in rows <==> row in ledger && row.userId == u
  {
    if |ledger| == 0 then []
    else
      var prev := ByUser(ledger[..|ledger| - 1], u);
      var last := ledger[|ledger| - 1];
      assert ledger == ledger[..|ledger| - 1] + [last];
      if last.userId == u then prev + [last] else prev
  }

  /** The user ids of the ledger, each once, in order of first appearance
      (`SELECT DISTINCT user_id`). */
  function DistinctUsers(ledger: Ledger): (users: seq<UserId>)
    ensures NoDuplicates(users)
    ensures forall u :: u in users <==> Mentions(ledger, u)
    ensures |users| <= |ledger|
  {
    if |ledger| == 0 then []
    else
      var init := ledger[..|ledger| - 1];
      var prev := DistinctUsers(init);
      var last := ledger[|ledger| - 1];
      assert forall u :: Mentions(ledger, u) <==> Mentions(init, u) || last.userId == u by {
        forall u
          ensures Mentions(ledger, u) <==> Mentions(init, u) || last.userId == u
        {
          if Mentions(ledger, u) {
            var i :| 0 <= i < |ledger| && ledger[i].userId == u;
            if i < |ledger| - 1 {
              assert init[i].userId == u;
            }
          }
          if Mentions(init, u) {
            var i :| 0 <= i < |init| && init[i].userId == u;
            assert ledger[i].userId == u;
          }
        }
      }
      if last.userId in prev then prev else prev + [last.userId]
  }

  /** A query through the connection: a broken connection makes the driver
      throw, which the repository reports as DATABASE_ERROR. */
  function Query<T>(conn: Connection, rows: T): (r: Result<T>)
    ensures r.Ok? <==> conn == Live
    ensures r.Ok? ==> r.value == rows
    ensures r.Err? ==> r.error == DatabaseError
  {
    if conn == Live then Ok(rows) else Err(DatabaseError)
  }

  /** `saveRedeem`: insert a row with the given ids and read it back by the id
      the database assigned it (`insertId`). The table declaration gives `id` no
      AUTO_INCREMENT, so the model does not say how the database picks the id;
      it enters as a parameter. An id already in use violates the primary key,
      which the driver reports like any other failure. */
  function SaveRedeem(ledger: Ledger, conn: Connection, insertId: int,
                      u: UserId, bookingId: int, serviceId: int)
    : (r: Result<(Ledger, RedeemRecord)>)
    ensures r.Ok? <==> conn == Live && Fresh(ledger, insertId)
    ensures r.Err? ==> r.error == DatabaseError
    ensures r.Ok? ==> r.value.0 == ledger + [r.value.1]
    ensures r.Ok? ==> r.value.1 == RedeemRecord(insertId, u, bookingId, serviceId)
    ensures r.Ok? && UniqueIds(ledger) ==> UniqueIds(r.value.0)
  {
    var row := RedeemRecord(insertId, u, bookingId, serviceId);
    if !Fresh(ledger, insertId) then Err(DatabaseError)
    else
      assert forall i :: 0 <= i < |ledger| ==> ledger[i] in ledger;
      Query(conn, (ledger + [row], row))
  }

  /** `alreadyRedeemedByUser`: the rows of `u`, in ledger order. */
  function AlreadyRedeemedByUser(ledger: Ledger, conn: Connection, u: UserId): (r: Result<Ledger>)
    ensures r.Ok? <==> conn == Live
    ensures r.Err? ==> r.error == DatabaseError
    ensures r.Ok? ==> r.value == ByUser(ledger, u)
    ensures r.Ok? ==> forall row :: row in r.value <==> row in ledger && row.userId == u
  {
    Query(conn, ByUser(ledger, u))
  }

  /** `getAllRedeems`: the whole ledger. */
  function GetAllRedeems(ledger: Ledger, conn: Connection): (r: Result<Ledger>)
    ensures r.Ok? <==> conn == Live
    ensures r.Err? ==> r.error == DatabaseError
    ensures r.Ok? ==> r.value == ledger
  {
    Query(conn, ledger)
  }

  /** `getAllUsers`: every user id of the ledger exactly once, and no other. */
  function GetAllUsers(ledger: Ledger, conn: Connection): (r: Result<seq<UserId>>)
    ensures r.Ok? <==> conn == Live
    ensures r.Err? ==> r.error == DatabaseError
    ensures r.Ok? ==> NoDuplicates(r.value) && forall u :: u in r.value <==> Mentions(ledger, u)
  {
    Query(conn, DistinctUsers(ledger))
  }

  /** Saving a row for `u` adds exactly that row to `u`'s rows and leaves every
      other user's rows as they were. */
  lemma SaveTouchesOnlyItsUser(ledger: Ledger, insertId: int, u: UserId, bookingId: int, serviceId: int,
                               v: UserId)
    ensures var r := SaveRedeem(ledger, Live, insertId, u, bookingId, serviceId);
            r.Ok? ==> ByUser(r.value.0, v) == if v == u then ByUser(ledger, v) + [r.value.1] else ByUser(ledger, v)
  {
  }

  /** `ByUser` distributes over concatenation: it keeps ledger order. */
  lemma {:induction false} ByUserAppend(a: Ledger, b: Ledger, u: UserId)
    ensures ByUser(a + b, u) == ByUser(a, u) + ByUser(b, u)
    decreases |b|
  {
    if |b| == 0 {
      assert a + b == a;
    } else {
      var b' := b[..|b| - 1];
      assert (a + b)[..|a + b| - 1] == a + b';
      assert b[..|b| - 1] == b';
      ByUserAppend(a, b', u);
    }
  }

  /** A save request: the id the database assigns, then the user, booking and
      service ids. */
  type SaveRequest = (int, UserId, int, int)

  /** The database hands out a different id for every request. */
  predicate DistinctIds(requests: seq<SaveRequest>) {
    forall i, j :: 0 <= i < j < |requests| ==> requests[i].0 != requests[j].0
  }

  /** The ledger produced by saving the requests in order, from `ledger`; a
      request whose id is taken fails and leaves the ledger as it was. */
  function SaveAll(ledger: Ledger, requests: seq<SaveRequest>): (after: Ledger)
    ensures |after| <= |ledger| + |requests|
    ensures |ledger| <= |after| && after[..|ledger|] == ledger
    ensures UniqueIds(ledger) ==> UniqueIds(after)
  {
    if |requests| == 0 then ledger
    else
      var (id, u, b, s) := requests[|requests| - 1];
      var prev := SaveAll(ledger, requests[..|requests| - 1]);
      match SaveRedeem(prev, Live, id, u, b, s)
      case Ok((after, _)) =>
        assert after[..|prev|] == prev;
        assert after[..|ledger|] == prev[..|ledger|];
        after
      case Err(_) => prev
  }

  /** How many of the requests are for user `u`. */
  function SavesFor(requests: seq<SaveRequest>, u: UserId): nat {
    if |requests| == 0 then 0
    else SavesFor(requests[..|requests| - 1], u) + (if requests[|requests| - 1].1 == u then 1 else 0)
  }

  /** Starting from an empty ledger, and with the database handing out distinct
      ids, every save succeeds: the i-th row carries the i-th id, `u`'s rows
      number exactly `u`'s saves, and the ledger grows by one row per save. */
  lemma {:induction false} RowsCountSaves(requests: seq<SaveRequest>, u: UserId)
    requires DistinctIds(requests)
    ensures |ByUser(SaveAll([], requests), u)| == SavesFor(requests, u)
    ensures |GetAllRedeems(SaveAll([], requests), Live).value| == |requests|
    ensures forall i :: 0 <= i < |requests| ==> SaveAll([], requests)[i].id == requests[i].0
    ensures UniqueIds(SaveAll([], requests))
  {
    if |requests| > 0 {
      var init := requests[..|requests| - 1];
      var (id, v, b, s) := requests[|requests| - 1];
      var prev := SaveAll([], init);
      assert DistinctIds(init);
      RowsCountSaves(init, u);
      assert Fresh(prev, id) by {
        forall row | row in prev
          ensures row.id != id
        {
          var k :| 0 <= k < |prev| && prev[k] == row;
          assert row.id == requests[k].0;
        }
      }
      SaveTouchesOnlyItsUser(prev, id, v, b, s, u);
    }
  }
}

=== FILE: redeem_service.dfy ===
/**
  QPoints: loyalty points earned from spend (one point per 500 spent, floored)
  minus eight points per redemption already in the ledger, and the redemption
  flow that checks the balance before appending a ledger row. The spend totals
  come from booking queries outside this model and enter as replies.
 */
module RedeemService {
  import opened Errors
  import opened RedeemRepository

  /** Points one redemption costs (`REDEEM_QPOINTS`). */
  const REDEEM_QPOINTS: nat := 8
  /** Spend that earns one point (`QPOINTS_TO_REDEEM`). */
  const QPOINTS_TO_REDEEM: nat := 500

  /** Points earned by a spend total: the whole number of 500s it contains. */
  function EarnedPoints(totalSpend: nat): (p: nat)
    ensures p * QPOINTS_TO_REDEEM <= totalSpend < (p + 1) * QPOINTS_TO_REDEEM
  {
    totalSpend / QPOINTS_TO_REDEEM
  }

  /** Earned points less the cost of the redemptions made; it is not clamped at zero. */
  function Balance(totalSpend: nat, redemptions: nat): int {
    EarnedPoints(totalSpend) - redemptions * REDEEM_QPOINTS
  }

  /** The guard of `redeem`: the UNFLOORED quotient of spend by 500, less the
      points already redeemed, is below the cost of one redemption. */
  predicate GuardRejects(totalSpend: nat, redemptions: nat) {
    (totalSpend as real) / (QPOINTS_TO_REDEEM as real) - ((redemptions * REDEEM_QPOINTS) as real)
      < REDEEM_QPOINTS as real
  }

  /** Because the threshold is a whole number, flooring the quotient first
      changes nothing: the unfloored guard rejects exactly when the floored
      balance is below the cost of one redemption. */
  lemma GuardAgreesWithBalance(totalSpend: nat, redemptions: nat)
    ensures GuardRejects(totalSpend, redemptions) <==> Balance(totalSpend, redemptions) < REDEEM_QPOINTS
  {
  }

  /** Whatever a query threw, passed through the catch of the service. */
  function Fail<T>(t: Thrown): (r: Result<T>)
    ensures r.Err? && r.error == Rethrow(t)
  {
    Err(Rethrow(t))
  }

  /** `getQPoints`: the user's floored earnings from doctor and service spend,
      less eight points per ledger row of theirs. */
  function GetQPoints(ledger: Ledger, conn: Connection, doctorSpend: Reply<nat>,
                      serviceSpend: Reply<nat>, u: UserId): (r: Result<int>)
    ensures r.Ok? <==> conn == Live && doctorSpend.Returns? && serviceSpend.Returns?
    ensures r.Ok? ==>
              r.value == (doctorSpend.value + serviceSpend.value) / 500 - 8 * |ByUser(ledger, u)|
    ensures conn == Broken ==> r == Err(DatabaseError)
    ensures conn == Live && doctorSpend.Throws? ==> r == Err(Rethrow(doctorSpend.thrown))
    ensures conn == Live && doctorSpend.Returns? && serviceSpend.Throws? ==>
              r == Err(Rethrow(serviceSpend.thrown))
  {
    match AlreadyRedeemedByUser(ledger, conn, u)
    case Err(e) => Fail(Raised(e))
    case Ok(rows) =>
      match doctorSpend
      case Throws(t) => Fail(t)
      case Returns(d) =>
        match serviceSpend
        case Throws(t) => Fail(t)
        case Returns(s) => Ok(Balance(d + s, |rows|))
  }

  /** The save at the end of `redeem`, which is not awaited: the call has
      answered before the insert settles, so a failed insert (an id already in
      use) never reaches the caller and the ledger stays as it was. */
  function UnawaitedSave(ledger: Ledger, insertId: int, u: UserId, bookingId: int, serviceId: int)
    : (after: Ledger)
    ensures Fresh(ledger, insertId) ==> after == ledger + [RedeemRecord(insertId, u, bookingId, serviceId)]
    ensures !Fresh(ledger, insertId) ==> after == ledger
  {
    match SaveRedeem(ledger, Live, insertId, u, bookingId, serviceId)
    case Ok((after, _)) => after
    case Err(_) => ledger
  }

  /** The redemption flow, with `insufficient` the value thrown when the guard
      rejects and `insertId` the id the database assigns to the new row. On
      success the result is the ledger after the save. */
  function RedeemThrowing(insufficient: Thrown, ledger: Ledger, conn: Connection,
                          doctorSpend: Reply<nat>, serviceSpend: Reply<nat>,
                          u: UserId, insertId: int, bookingId: int, serviceId: int): Result<Ledger>
  {
    match AlreadyRedeemedByUser(ledger, conn, u)
    case Err(e) => Fail(Raised(e))
    case Ok(rows) =>
      match doctorSpend
      case Throws(t) => Fail(t)
      case Returns(d) =>
        match serviceSpend
        case Throws(t) => Fail(t)
        case Returns(s) =>
          if GuardRejects(d + s, |rows|) then Fail(insufficient)
          else Ok(UnawaitedSave(ledger, insertId, u, bookingId, serviceId))
  }

  /** Whether the two spend queries answered and the balance covers a redemption. */
  predicate CanRedeem(ledger: Ledger, doctorSpend: Reply<nat>, serviceSpend: Reply<nat>, u: UserId) {
    && doctorSpend.Returns? && serviceSpend.Returns?
    && Balance(doctorSpend.value + serviceSpend.value, |ByUser(ledger, u)|) >= REDEEM_QPOINTS
  }

  /** The guard of `redeem`, read on the ledger and the spend replies. */
  lemma GuardDecidesCanRedeem(ledger: Ledger, doctorSpend: Reply<nat>, serviceSpend: Reply<nat>, u: UserId)
    ensures doctorSpend.Returns? && serviceSpend.Returns? ==>
              (GuardRejects(doctorSpend.value + serviceSpend.value, |ByUser(ledger, u)|) <==>
               !CanRedeem(ledger, doctorSpend, serviceSpend, u))
  {
    if doctorSpend.Returns? && serviceSpend.Returns? {
      GuardAgreesWithBalance(doctorSpend.value + serviceSpend.value, |ByUser(ledger, u)|);
    }
  }

  /** `redeem` as written: `ERRORS.INSUFFICIENT_QPOINTS` is not an entry of the
      table, so the rejection throws `undefined`, which the catch turns into
      INTERNAL_SERVER_ERROR. */
  function RedeemAsWritten(ledger: Ledger, conn: Connection, doctorSpend: Reply<nat>,
                           serviceSpend: Reply<nat>, u: UserId, insertId: int, bookingId: int, serviceId: int)
    : (r: Result<Ledger>)
    ensures r.Ok? <==> conn == Live && CanRedeem(ledger, doctorSpend, serviceSpend, u)
    ensures (conn == Live && doctorSpend.Returns? && serviceSpend.Returns?
             && !CanRedeem(ledger, doctorSpend, serviceSpend, u)) ==> r == Err(InternalServerError)
  {
    GuardDecidesCanRedeem(ledger, doctorSpend, serviceSpend, u);
    RedeemThrowing(ThrowName(InsufficientQPoints), ledger, conn, doctorSpend, serviceSpend,
                   u, insertId, bookingId, serviceId)
  }

  /** `redeem` with the rejection reaching the caller as INSUFFICIENT_QPOINTS.
      It succeeds exactly when the floored balance covers one redemption, and
      then saves one row carrying the given ids under the id the database
      assigns; the booking and service ids are not checked. */
  function Redeem(ledger: Ledger, conn: Connection, doctorSpend: Reply<nat>,
                  serviceSpend: Reply<nat>, u: UserId, insertId: int, bookingId: int, serviceId: int)
    : (r: Result<Ledger>)
    ensures r.Ok? <==> conn == Live && CanRedeem(ledger, doctorSpend, serviceSpend, u)
    ensures r.Ok? && Fresh(ledger, insertId) ==>
              r.value == ledger + [RedeemRecord(insertId, u, bookingId, serviceId)]
    ensures r.Ok? && !Fresh(ledger, insertId) ==> r.value == ledger
    ensures r.Ok? && UniqueIds(ledger) ==> UniqueIds(r.value)
    ensures (conn == Live && doctorSpend.Returns? && serviceSpend.Returns?
             && !CanRedeem(ledger, doctorSpend, serviceSpend, u)) ==> r == Err(InsufficientQPoints)
    ensures conn == Broken ==> r == Err(DatabaseError)
    ensures conn == Live && doctorSpend.Throws? ==> r == Err(Rethrow(doctorSpend.thrown))
    ensures conn == Live && doctorSpend.Returns? && serviceSpend.Throws? ==>
              r == Err(Rethrow(serviceSpend.thrown))
    ensures r.Err? ==> || r.error in {DatabaseError, InsufficientQPoints, InternalServerError}
                       || (doctorSpend.Throws? && r.error == Rethrow(doctorSpend.thrown))
                       || (serviceSpend.Throws? && r.error == Rethrow(serviceSpend.thrown))
  {
    GuardDecidesCanRedeem(ledger, doctorSpend, serviceSpend, u);
    RedeemThrowing(Raised(InsufficientQPoints), ledger, conn, doctorSpend, serviceSpend,
                   u, insertId, bookingId, serviceId)
  }

  /** As written, every rejection by the guard reaches the caller as
      INTERNAL_SERVER_ERROR rather than INSUFFICIENT_QPOINTS; a user with no
      spend and no redemptions is one such input. */
  lemma InsufficientReportedAsInternal(ledger: Ledger, d: nat, s: nat, u: UserId,
                                       insertId: int, bookingId: int, serviceId: int)
    requires !CanRedeem(ledger, Returns(d), Returns(s), u)
    ensures RedeemAsWritten(ledger, Live, Returns(d), Returns(s), u, insertId, bookingId, serviceId)
            == Err(InternalServerError)
    ensures Redeem(ledger, Live, Returns(d), Returns(s), u, insertId, bookingId, serviceId)
            == Err(InsufficientQPoints)
  {
    GuardAgreesWithBalance(d + s, |ByUser(ledger, u)|);
  }

  /** Outside the rejection, the code as written and the corrected flow agree. */
  lemma AsWrittenAgreesElsewhere(ledger: Ledger, conn: Connection, doctorSpend: Reply<nat>,
                                 serviceSpend: Reply<nat>, u: UserId,
                                 insertId: int, bookingId: int, serviceId: int)
    ensures var fixed := Redeem(ledger, conn, doctorSpend, serviceSpend, u, insertId, bookingId, serviceId);
            fixed != Err(InsufficientQPoints) ==>
              RedeemAsWritten(ledger, conn, doctorSpend, serviceSpend, u, insertId, bookingId, serviceId)
                == fixed
  {
  }

  /** When the collaborators throw only what the code can produce, every error
      `getQPoints` and `redeem` as written hand the caller is an entry of the
      table; the corrected `redeem` adds INSUFFICIENT_QPOINTS and nothing else. */
  lemma CallerSeesTableEntries(ledger: Ledger, conn: Connection, doctorSpend: Reply<nat>,
                               serviceSpend: Reply<nat>, u: UserId,
                               insertId: int, bookingId: int, serviceId: int)
    requires WellFormed(doctorSpend) && WellFormed(serviceSpend)
    ensures var r := GetQPoints(ledger, conn, doctorSpend, serviceSpend, u);
            r.Err? ==> InTable(r.error)
    ensures var r := RedeemAsWritten(ledger, conn, doctorSpend, serviceSpend, u, insertId, bookingId, serviceId);
            r.Err? ==> InTable(r.error)
    ensures var r := Redeem(ledger, conn, doctorSpend, serviceSpend, u, insertId, bookingId, serviceId);
            r.Err? ==> InTable(r.error) || r.error == InsufficientQPoints
  {
    if doctorSpend.Throws? {
      CatchYieldsTableEntry(doctorSpend.thrown);
    }
    if serviceSpend.Throws? {
      CatchYieldsTableEntry(serviceSpend.thrown);
    }
  }

  /** When the spend queries throw only what the code can produce, the
      corrected `redeem` answers INSUFFICIENT_QPOINTS exactly when both spend
      queries answered on a live connection and the guard rejected. */
  lemma RejectionIsInsufficientExactly(ledger: Ledger, conn: Connection, doctorSpend: Reply<nat>,
                                       serviceSpend: Reply<nat>, u: UserId,
                                       insertId: int, bookingId: int, serviceId: int)
    requires WellFormed(doctorSpend) && WellFormed(serviceSpend)
    ensures Redeem(ledger, conn, doctorSpend, serviceSpend, u, insertId, bookingId, serviceId)
              == Err(InsufficientQPoints)
            <==> conn == Live && doctorSpend.Returns? && serviceSpend.Returns?
                 && GuardRejects(doctorSpend.value + serviceSpend.value, |ByUser(ledger, u)|)
  {
    GuardDecidesCanRedeem(ledger, doctorSpend, serviceSpend, u);
    if doctorSpend.Throws? {
      CatchYieldsTableEntry(doctorSpend.thrown);
    }
    if serviceSpend.Throws? {
      CatchYieldsTableEntry(serviceSpend.thrown);
    }
  }

  /** A successful redemption with a fresh id lowers that user's `getQPoints`
      by exactly eight with spend unchanged, and leaves every other user's
      balance alone; with an id already in use the lost save charges nothing. */
  lemma RedeemCostsEightPoints(ledger: Ledger, d: nat, s: nat, u: UserId,
                               insertId: int, bookingId: int, serviceId: int, v: UserId)
    requires Redeem(ledger, Live, Returns(d), Returns(s), u, insertId, bookingId, serviceId).Ok?
    ensures var after := Redeem(ledger, Live, Returns(d), Returns(s), u, insertId, bookingId, serviceId).value;
            GetQPoints(after, Live, Returns(d), Returns(s), v).value
              == GetQPoints(ledger, Live, Returns(d), Returns(s), v).value
                 - (if v == u && Fresh(ledger, insertId) then 8 else 0)
  {
    SaveTouchesOnlyItsUser(ledger, insertId, u, bookingId, serviceId, v);
  }

  /** The booking and service ids play no part in the decision: only the row
      written differs. */
  lemma RedeemIgnoresBookingAndService(ledger: Ledger, conn: Connection, doctorSpend: Reply<nat>,
                                       serviceSpend: Reply<nat>, u: UserId, insertId: int,
                                       b1: int, s1: int, b2: int, s2: int)
    ensures Redeem(ledger, conn, doctorSpend, serviceSpend, u, insertId, b1, s1).Ok?
            == Redeem(ledger, conn, doctorSpend, serviceSpend, u, insertId, b2, s2).Ok?
    ensures Redeem(ledger, conn, doctorSpend, serviceSpend, u, insertId, b1, s1).Err? ==>
              Redeem(ledger, conn, doctorSpend, serviceSpend, u, insertId, b1, s1)
                == Redeem(ledger, conn, doctorSpend, serviceSpend, u, insertId, b2, s2)
  {
  }

  /** The balance is not clamped: once spend no longer covers past redemptions
      `getQPoints` goes negative. */
  lemma BalanceCanBeNegative(u: UserId)
    ensures GetQPoints([RedeemRecord(1, u, 0, 0)], Live, Returns(0), Returns(0), u) == Ok(-8)
  {
    assert ByUser([RedeemRecord(1, u, 0, 0)], u) == [RedeemRecord(1, u, 0, 0)];
  }

  // ---------------------------------------------------------------------------
  // The balance over a history of spend and redemptions

  /** Spend per user as the spend queries total it, on doctors and on services. */
  datatype Spend = Spend(doctor: nat, service: nat)

  /** What the clinic knows about points: each user's spend so far and the ledger. */
  datatype Clinic = Clinic(spend: map<UserId, Spend>, ledger: Ledger)

  /** Spend only grows or a user asks to redeem. */
  datatype Event =
    | Earn(user: UserId, doctorFees: nat, servicePrice: nat)
    | Claim(user: UserId, insertId: int, bookingId: int, serviceId: int)

  function SpendOf(c: Clinic, u: UserId): Spend {
    if u in c.spend then c.spend[u] else Spend(0, 0)
  }

  /** The balance `getQPoints` reports for `u` in this state. */
  function PointsOf(c: Clinic, u: UserId): int {
    Balance(SpendOf(c, u).doctor + SpendOf(c, u).service, |ByUser(c.ledger, u)|)
  }

  ghost predicate NoNegativeBalance(c: Clinic) {
    forall u :: PointsOf(c, u) >= 0
  }

  function Step(c: Clinic, e: Event): Clinic {
    match e
    case Earn(u, d, s) =>
      var before := SpendOf(c, u);
      c.(spend := c.spend[u := Spend(before.doctor + d, before.service + s)])
    case Claim(u, id, b, s) =>
      match Redeem(c.ledger, Live, Returns(SpendOf(c, u).doctor), Returns(SpendOf(c, u).service), u, id, b, s)
      case Ok(after) => c.(ledger := after)
      case Err(_) => c
  }

  function Run(c: Clinic, events: seq<Event>): Clinic
    decreases |events|
  {
    if |events| == 0 then c else Run(Step(c, events[0]), events[1..])
  }

  /** More spend never earns fewer points. */
  lemma EarnedPointsMonotone(a: nat, b: nat)
    requires a <= b
    ensures EarnedPoints(a) <= EarnedPoints(b)
  {
  }

  /** One step keeps every balance non-negative: spend only adds points, and a
      redemption is written only when the balance covers it. */
  lemma StepKeepsBalanceNonNegative(c: Clinic, e: Event)
    requires NoNegativeBalance(c)
    ensures NoNegativeBalance(Step(c, e))
  {
    var c' := Step(c, e);
    forall v
      ensures PointsOf(c', v) >= 0
    {
      assert PointsOf(c, v) >= 0;
      match e
      case Earn(u, d, s) =>
        if v == u {
          EarnedPointsMonotone(SpendOf(c, v).doctor + SpendOf(c, v).service,
                               SpendOf(c', v).doctor + SpendOf(c', v).service);
        } else {
          assert SpendOf(c', v) == SpendOf(c, v);
        }
      case Claim(u, id, b, s) =>
        var r := Redeem(c.ledger, Live, Returns(SpendOf(c, u).doctor), Returns(SpendOf(c, u).service), u, id, b, s);
        if r.Ok? {
          SaveTouchesOnlyItsUser(c.ledger, id, u, b, s, v);
        }
    }
  }

  /** If every ledger row went through the guard and spend never decreases,
      no user's `getQPoints` is ever negative. */
  lemma {:induction false} RunKeepsBalanceNonNegative(c: Clinic, events: seq<Event>)
    requires NoNegativeBalance(c)
    ensures NoNegativeBalance(Run(c, events))
    decreases |events|
  {
    if |events| > 0 {
      StepKeepsBalanceNonNegative(c, events[0]);
      RunKeepsBalanceNonNegative(Step(c, events[0]), events[1..]);
    }
  }

  /** From a clinic with no spend and no redemptions, balances stay non-negative. */
  lemma FreshClinicNeverNegative(events: seq<Event>)
    ensures NoNegativeBalance(Run(Clinic(map[], []), events))
  {
    RunKeepsBalanceNonNegative(Clinic(map[], []), events);
  }

  // ---------------------------------------------------------------------------
  // The admin list of redeeming users

  /** The two properties `getUserList` reads off a user row, `name` and
      `branch_name`; `None` where the row has no such property and the value
      read is `undefined`. */
  datatype UserDetails = UserDetails(name: Option<string>, branchName: Option<string>)

  /** What the booking queries report about a user. */
  datatype Activity = Activity(visitCount: nat, doctorSpend: nat, serviceSpend: nat)

  /** One entry of `getUserList` (the source spells the last key `brancahName`). */
  datatype UserSummary = UserSummary(userId: UserId, name: Option<string>, visitCount: nat,
                                     stampsCollected: nat, branchName: Option<string>)

  predicate Known(users: seq<UserId>, directory: map<UserId, UserDetails>) {
    forall i :: 0 <= i < |users| ==> users[i] in directory
  }

  predicate Answered(users: seq<UserId>, activity: UserId -> Reply<Activity>) {
    forall i :: 0 <= i < |users| ==> activity(users[i]).Returns?
  }

  /** Every user before position `k` is in the user table and had their booking
      queries answer, so the loop of `getUserList` reaches user `k`. */
  predicate ReachesUser(users: seq<UserId>, directory: map<UserId, UserDetails>,
                        activity: UserId -> Reply<Activity>, k: nat) {
    forall j :: 0 <= j < k && j < |users| ==> users[j] in directory && activity(users[j]).Returns?
  }

  /** The loop of `getUserList`, one entry per user in order; a user missing
      from the user table throws USER_NOT_FOUND, which passes through. */
  function Summaries(users: seq<UserId>, directory: map<UserId, UserDetails>,
                     activity: UserId -> Reply<Activity>): (r: Result<seq<UserSummary>>)
    ensures r.Ok? <==> Known(users, directory) && Answered(users, activity)
    ensures Answered(users, activity) && !Known(users, directory) ==> r == Err(UserNotFound)
    ensures forall k: nat :: k < |users| && ReachesUser(users, directory, activity, k) ==>
              && (users[k] !in directory ==> r == Err(UserNotFound))
              && (users[k] in directory && activity(users[k]).Throws? ==>
                    r == Err(Rethrow(activity(users[k]).thrown)))
    ensures r.Ok? ==> |r.value| == |users|
    ensures r.Ok? ==> forall i :: 0 <= i < |users| ==>
              && r.value[i].userId == users[i]
              && r.value[i].name == directory[users[i]].name
              && r.value[i].branchName == directory[users[i]].branchName
              && r.value[i].visitCount == activity(users[i]).value.visitCount
              && r.value[i].stampsCollected
                   == (activity(users[i]).value.doctorSpend + activity(users[i]).value.serviceSpend) / 500
  {
    if |users| == 0 then Ok([])
    else
      var u := users[0];
      if u !in directory then Fail(Raised(UserNotFound))
      else
        match activity(u)
        case Throws(t) => Fail(t)
        case Returns(a) =>
          match Summaries(users[1..], directory, activity)
          case Err(e) => Err(e)
          case Ok(rest) =>
            var details := directory[u];
            Ok([UserSummary(u, details.name, a.visitCount,
                            EarnedPoints(a.doctorSpend + a.serviceSpend), details.branchName)] + rest)
  }

  /** `getUserList`: a summary per distinct user of the ledger, in the order the
      ledger returns them. */
  function GetUserList(ledger: Ledger, conn: Connection, directory: map<UserId, UserDetails>,
                       activity: UserId -> Reply<Activity>): (r: Result<seq<UserSummary>>)
    ensures r.Ok? <==> conn == Live && Known(DistinctUsers(ledger), directory)
                                    && Answered(DistinctUsers(ledger), activity)
    ensures conn == Broken ==> r == Err(DatabaseError)
    ensures conn == Live ==> r == Summaries(DistinctUsers(ledger), directory, activity)
    ensures r.Ok? ==> |r.value| == |DistinctUsers(ledger)|
    ensures r.Ok? ==> forall i :: 0 <= i < |r.value| ==> r.value[i].userId == DistinctUsers(ledger)[i]
    ensures r.Ok? ==> forall u :: Mentions(ledger, u) <==> exists i :: 0 <= i < |r.value| && r.value[i].userId == u
  {
    match GetAllUsers(ledger, conn)
    case Err(e) => Fail(Raised(e))
    case Ok(users) =>
      var r := Summaries(users, directory, activity);
      if r.Ok? then
        assert forall u :: u in users <==> exists i :: 0 <= i < |r.value| && r.value[i].userId == u by {
          forall u | u in users
            ensures exists i :: 0 <= i < |r.value| && r.value[i].userId == u
          {
            var i :| 0 <= i < |users| && users[i] == u;
            assert r.value[i].userId == u;
          }
        }
        r
      else r
  }

  /** The stamps shown in the user list are the points earned, before the
      redemptions are taken off: they exceed the `getQPoints` balance by eight
      per ledger row of that user. */
  lemma StampsIgnoreRedemptions(ledger: Ledger, directory: map<UserId, UserDetails>,
                                activity: UserId -> Reply<Activity>, i: nat)
    requires GetUserList(ledger, Live, directory, activity).Ok?
    requires i < |GetUserList(ledger, Live, directory, activity).value|
    ensures var entry := GetUserList(ledger, Live, directory, activity).value[i];
            var a := activity(entry.userId).value;
            GetQPoints(ledger, Live, Returns(a.doctorSpend), Returns(a.serviceSpend), entry.userId)
              == Ok(entry.stampsCollected - 8 * |ByUser(ledger, entry.userId)|)
  {
    var users := DistinctUsers(ledger);
    var r := Summaries(users, directory, activity);
    var entry := r.value[i];
    assert entry.userId == users[i];
    var a := activity(users[i]).value;
    assert entry.stampsCollected == (a.doctorSpend + a.serviceSpend) / 500;
    var q := GetQPoints(ledger, Live, Returns(a.doctorSpend), Returns(a.serviceSpend), entry.userId);
    assert q.value == (a.doctorSpend + a.serviceSpend) / 500 - 8 * |ByUser(ledger, entry.userId)|;
  }
}

=== FILE: setting_service.dfy ===
/**
  The service catalog as the admin and client screens see it: services joined
  to their categories, the partial update of a service, and its creation. Every
  failure in this part of the backend, a missing service or category included,
  reaches the caller as INTERNAL_SERVER_ERROR.
 */
module SettingService {
  import opened Errors

  /** A row of the `service` table. */
  datatype Service = Service(
    id: int,
    nameEn: string,
    nameAr: string,
    categoryId: int,
    aboutEn: string,
    aboutAr: string,
    actualPrice: int,
    discountedPrice: int,
    maximumBookingPerSlot: int,
    serviceImageEnUrl: string,
    serviceImageArUrl: string,
    canRedeem: bool)

  /** A row of the `service_category` table. */
  datatype ServiceCategory = ServiceCategory(id: int, nameEn: string, nameAr: string, categoryType: string)

  /** A service shown together with its category. */
  datatype ServiceView = ServiceView(service: Service, category: ServiceCategory)

  /** An entry of the available-slot listing of a service. */
  datatype TimeSlotView = TimeSlotView(timeSlotId: int)

  /** The two catalog tables, rows in the order the database returns them. */
  datatype Catalog = Catalog(services: seq<Service>, categories: seq<ServiceCategory>)

  /** The arguments of `update`: `None` stands for `undefined`. */
  datatype ServicePatch = ServicePatch(
    nameEn: Option<string>,
    nameAr: Option<string>,
    categoryId: Option<int>,
    aboutEn: Option<string>,
    aboutAr: Option<string>,
    actualPrice: Option<int>,
    discountedPrice: Option<int>,
    maximumBookingPerSlot: Option<int>,
    serviceImageEnUrl: Option<string>,
    serviceImageArUrl: Option<string>,
    canRedeem: Option<bool>)

  const EMPTY_PATCH: ServicePatch :=
    ServicePatch(None, None, None, None, None, None, None, None, None, None, None)

  predicate UniqueServiceIds(services: seq<Service>) {
    forall i, j :: 0 <= i < j < |services| ==> services[i].id != services[j].id
  }

  predicate UniqueCategoryIds(categories: seq<ServiceCategory>) {
    forall i, j :: 0 <= i < j < |categories| ==> categories[i].id != categories[j].id
  }

  predicate HasCategory(categories: seq<ServiceCategory>, id: int) {
    exists i :: 0 <= i < |categories| && categories[i].id == id
  }

  // ---------------------------------------------------------------------------
  // Lookups

  /** The map built by `forEach(category => map.set(category.id, category))`:
      a later row with the same id replaces an earlier one. */
  function CategoryMap(categories: seq<ServiceCategory>): (m: map<int, ServiceCategory>)
    ensures forall id :: id in m <==> HasCategory(categories, id)
    ensures forall id :: id in m ==> m[id] in categories && m[id].id == id
  {
    if |categories| == 0 then map[]
    else
      var init := categories[..|categories| - 1];
      var last := categories[|categories| - 1];
      assert forall id :: HasCategory(categories, id) <==> HasCategory(init, id) || last.id == id by {
        forall id
          ensures HasCategory(categories, id) <==> HasCategory(init, id) || last.id == id
        {
          if HasCategory(categories, id) {
            var i :| 0 <= i < |categories| && categories[i].id == id;
            if i < |init| {
              assert init[i].id == id;
            }
          }
          if HasCategory(init, id) {
            var i :| 0 <= i < |init| && init[i].id == id;
            assert categories[i].id == id;
          }
        }
      }
      CategoryMap(init)[last.id := last]
  }

  /** The first category row with the given id (`... WHERE id = ?` then `[0]`),
      `None` where the source gets `undefined`. */
  function FindCategory(categories: seq<ServiceCategory>, id: int): (c: Option<ServiceCategory>)
    ensures c.Some? <==> HasCategory(categories, id)
    ensures c.Some? ==> c.value in categories && c.value.id == id
  {
    if |categories| == 0 then None
    else if categories[0].id == id then Some(categories[0])
    else
      var c := FindCategory(categories[1..], id);
      assert HasCategory(categories, id) <==> HasCategory(categories[1..], id) by {
        if HasCategory(categories, id) {
          var i :| 0 <= i < |categories| && categories[i].id == id;
          assert categories[1..][i - 1].id == id;
        }
        if HasCategory(categories[1..], id) {
          var i :| 0 <= i < |categories[1..]| && categories[1..][i].id == id;
          assert categories[i + 1].id == id;
        }
      }
      c
  }

  /** The first service row with the given id. */
  function FindService(services: seq<Service>, id: int): (s: Option<Service>)
    ensures s.Some? <==> exists x :: x in services && x.id == id
    ensures s.Some? ==> s.value in services && s.value.id == id
  {
    if |services| == 0 then None
    else if services[0].id == id then Some(services[0])
    else FindService(services[1..], id)
  }

  /** With primary-key ids, the map of `getAll` and the lookup by id agree. */
  lemma CategoryMapAgreesWithLookup(categories: seq<ServiceCategory>, id: int)
    requires UniqueCategoryIds(categories)
    ensures id in CategoryMap(categories) <==> FindCategory(categories, id).Some?
    ensures id in CategoryMap(categories) ==> CategoryMap(categories)[id] == FindCategory(categories, id).value
  {
  }

  // ---------------------------------------------------------------------------
  // Joining services to categories

  /** Each service paired with its category, in order; a service whose category
      is not in the map is skipped. */
  function Join(services: seq<Service>, m: map<int, ServiceCategory>): (views: seq<ServiceView>)
    ensures |views| <= |services|
    ensures forall v :: v in views ==>
              v.service in services && v.service.categoryId in m && v.category == m[v.service.categoryId]
    ensures forall s :: s in services && s.categoryId in m ==> ServiceView(s, m[s.categoryId]) in views
  {
    if |services| == 0 then []
    else
      var s := services[0];
      var rest := Join(services[1..], m);
      assert forall x :: x in services ==> x == s || x in services[1..];
      if s.categoryId in m then [ServiceView(s, m[s.categoryId])] + rest else rest
  }

  /** The join works row by row: it distributes over concatenation, so the
      views come out in the order of the services. */
  lemma {:induction false} JoinAppend(a: seq<Service>, b: seq<Service>, m: map<int, ServiceCategory>)
    ensures Join(a + b, m) == Join(a, m) + Join(b, m)
    decreases |a|
  {
    if |a| == 0 {
      assert a + b == b;
    } else {
      assert (a + b)[1..] == a[1..] + b;
      JoinAppend(a[1..], b, m);
    }
  }

  /** When every category is known nothing is dropped: the i-th view is the
      i-th service. */
  lemma {:induction false} JoinKeepsAllKnown(services: seq<Service>, m: map<int, ServiceCategory>)
    requires forall s :: s in services ==> s.categoryId in m
    ensures |Join(services, m)| == |services|
    ensures forall i :: 0 <= i < |services| ==>
              Join(services, m)[i] == ServiceView(services[i], m[services[i].categoryId])
    decreases |services|
  {
    if |services| > 0 {
      assert forall s :: s in services[1..] ==> s in services;
      JoinKeepsAllKnown(services[1..], m);
    }
  }

  /** The loop of `getAll`: build the category map, then walk the services,
      skipping those whose category is missing. It computes the join. */
  method AssembleViews(services: seq<Service>, categories: seq<ServiceCategory>)
    returns (views: seq<ServiceView>)
    ensures views == Join(services, CategoryMap(categories))
  {
    var m: map<int, ServiceCategory> := map[];
    var k := 0;
    while k < |categories|
      invariant 0 <= k <= |categories|
      invariant m == CategoryMap(categories[..k])
    {
      assert categories[..k + 1][..k] == categories[..k];
      m := m[categories[k].id := categories[k]];
      k := k + 1;
    }
    assert categories[..k] == categories;
    views := [];
    var i := 0;
    while i < |services|
      invariant 0 <= i <= |services|
      invariant views == Join(services[..i], m)
    {
      var service := services[i];
      JoinAppend(services[..i], [service], m);
      assert services[..i + 1] == services[..i] + [service];
      i := i + 1;
      if service.categoryId !in m {
        continue;
      }
      views := views + [ServiceView(service, m[service.categoryId])];
    }
    assert services[..i] == services;
  }

  // ---------------------------------------------------------------------------
  // Listings

  /** `getAll`: every service whose category exists, with that category. */
  function GetAll(catalog: Catalog, conn: Connection): (r: Result<seq<ServiceView>>)
    ensures r.Ok? <==> conn == Live
    ensures r.Err? ==> r.error == InternalServerError
    ensures r.Ok? ==> r.value == Join(catalog.services, CategoryMap(catalog.categories))
    ensures r.Ok? ==> |r.value| <= |catalog.services|
    ensures r.Ok? ==> forall v :: v in r.value <==>
              v.service in catalog.services && HasCategory(catalog.categories, v.service.categoryId)
              && v.category == CategoryMap(catalog.categories)[v.service.categoryId]
  {
    if conn.Broken? then Err(InternalServerError)
    else Ok(Join(catalog.services, CategoryMap(catalog.categories)))
  }

  /** `getServicesForBranch`: the rows the branch query returns, joined the
      same way. An unknown branch fails. */
  function GetServicesForBranch(catalog: Catalog, conn: Connection, branches: set<int>,
                                branchServices: seq<Service>, branchId: int)
    : (r: Result<seq<ServiceView>>)
    ensures r.Ok? <==> conn == Live && branchId in branches
    ensures r.Err? ==> r.error == InternalServerError
    ensures r.Ok? ==> r.value == Join(branchServices, CategoryMap(catalog.categories))
    ensures r.Ok? ==> |r.value| <= |branchServices|
    ensures r.Ok? ==> forall v :: v in r.value <==>
              v.service in branchServices && HasCategory(catalog.categories, v.service.categoryId)
              && v.category == CategoryMap(catalog.categories)[v.service.categoryId]
  {
    if conn.Broken? then Err(InternalServerError)
    else if branchId !in branches then CatchAll(Err(BranchNotFound))
    else Ok(Join(branchServices, CategoryMap(catalog.categories)))
  }

  /** The services marked redeemable, in table order (`WHERE can_redeem = 1`). */
  function Redeemable(services: seq<Service>): (rs: seq<Service>)
    ensures |rs| <= |services|
    ensures forall s :: s in rs <==> s in services && s.canRedeem
  {
    if |services| == 0 then []
    else
      assert forall x :: x in services ==> x == services[0] || x in services[1..];
      (if services[0].canRedeem then [services[0]] else []) + Redeemable(services[1..])
  }

  /** `getRedeemableServices`: the redeemable services whose category exists. */
  function GetRedeemableServices(catalog: Catalog, conn: Connection): (r: Result<seq<ServiceView>>)
    ensures r.Ok? <==> conn == Live
    ensures r.Err? ==> r.error == InternalServerError
    ensures r.Ok? ==> r.value == Join(Redeemable(catalog.services), CategoryMap(catalog.categories))
    ensures r.Ok? ==> |r.value| <= |catalog.services|
    ensures r.Ok? ==> forall v :: v in r.value <==>
              v.service in catalog.services && v.service.canRedeem
              && HasCategory(catalog.categories, v.service.categoryId)
              && v.category == CategoryMap(catalog.categories)[v.service.categoryId]
  {
    if conn.Broken? then Err(InternalServerError)
    else Ok(Join(Redeemable(catalog.services), CategoryMap(catalog.categories)))
  }

  /** The views of redeemable services, in order. */
  function RedeemableViews(views: seq<ServiceView>): (rs: seq<ServiceView>)
    ensures |rs| <= |views|
    ensures forall v :: v in rs <==> v in views && v.service.canRedeem
  {
    if |views| == 0 then []
    else
      assert forall x :: x in views ==> x == views[0] || x in views[1..];
      (if views[0].service.canRedeem then [views[0]] else []) + RedeemableViews(views[1..])
  }

  /** Filtering on `can_redeem` before the join or after it gives the same views. */
  lemma {:induction false} JoinRedeemable(services: seq<Service>, m: map<int, ServiceCategory>)
    ensures Join(Redeemable(services), m) == RedeemableViews(Join(services, m))
    decreases |services|
  {
    if |services| > 0 {
      var s := services[0];
      JoinRedeemable(services[1..], m);
      JoinAppend(if s.canRedeem then [s] else [], Redeemable(services[1..]), m);
    }
  }

  /** `getRedeemableServices` is the `getAll` listing with only the redeemable
      services kept, in the same order. */
  lemma RedeemableIsFilteredGetAll(catalog: Catalog)
    ensures GetRedeemableServices(catalog, Live).value == RedeemableViews(GetAll(catalog, Live).value)
  {
    JoinRedeemable(catalog.services, CategoryMap(catalog.categories));
  }

  /** The services of one category, in table order (`WHERE category_id = ?`). */
  function InCategory(services: seq<Service>, categoryId: int): (rs: seq<Service>)
    ensures |rs| <= |services|
    ensures forall s :: s in rs <==> s in services && s.categoryId == categoryId
  {
    if |services| == 0 then []
    else
      assert forall x :: x in services ==> x == services[0] || x in services[1..];
      (if services[0].categoryId == categoryId then [services[0]] else []) + InCategory(services[1..], categoryId)
  }

  /** `getAllByCategory`: every service of the category, each with the one
      requested category; an unknown category fails. */
  function GetAllByCategory(catalog: Catalog, conn: Connection, categoryId: int)
    : (r: Result<seq<ServiceView>>)
    ensures r.Ok? <==> conn == Live && HasCategory(catalog.categories, categoryId)
    ensures r.Err? ==> r.error == InternalServerError
    ensures r.Ok? ==> |r.value| == |InCategory(catalog.services, categoryId)|
    ensures r.Ok? ==> forall i :: 0 <= i < |r.value| ==>
              r.value[i].service == InCategory(catalog.services, categoryId)[i]
              && r.value[i].category == FindCategory(catalog.categories, categoryId).value
  {
    if conn.Broken? then Err(InternalServerError)
    else match FindCategory(catalog.categories, categoryId)
      case None => CatchAll(Err(InvalidServiceCategory))
      case Some(category) =>
        var services := InCategory(catalog.services, categoryId);
        Ok(seq(|services|, i requires 0 <= i < |services| => ServiceView(services[i], category)))
  }

  /** With primary-key category ids, listing one category gives exactly the
      views of `getAll` for services of that category, in the same order. */
  lemma ByCategoryIsFilteredGetAll(services: seq<Service>, categories: seq<ServiceCategory>, categoryId: int)
    requires UniqueCategoryIds(categories)
    requires HasCategory(categories, categoryId)
    ensures GetAllByCategory(Catalog(services, categories), Live, categoryId).value
            == Join(InCategory(services, categoryId), CategoryMap(categories))
  {
    CategoryMapAgreesWithLookup(categories, categoryId);
    var mine := InCategory(services, categoryId);
    JoinKeepsAllKnown(mine, CategoryMap(categories));
  }

  /** `getAvailableTimeSlots`: the body is commented out and it returns an
      empty list, whatever the service and date. */
  function GetAvailableTimeSlots(serviceId: int, date: string): (r: seq<TimeSlotView>)
    ensures r == []
  {
    []
  }

  // ---------------------------------------------------------------------------
  // Creation and partial update

  function Or<T>(o: Option<T>, stored: T): T {
    match o
    case Some(v) => v
    case None => stored
  }

  /** The field-wise merge of `update`: a field takes its argument when that
      is defined and keeps the stored value otherwise; the id never changes. */
  function ApplyPatch(s: Service, p: ServicePatch): (r: Service)
    ensures r.id == s.id
    ensures p.nameEn.Some? ==> r.nameEn == p.nameEn.value
    ensures p.nameEn.None? ==> r.nameEn == s.nameEn
    ensures p.nameAr.Some? ==> r.nameAr == p.nameAr.value
    ensures p.nameAr.None? ==> r.nameAr == s.nameAr
    ensures p.categoryId.Some? ==> r.categoryId == p.categoryId.value
    ensures p.categoryId.None? ==> r.categoryId == s.categoryId
    ensures p.aboutEn.Some? ==> r.aboutEn == p.aboutEn.value
    ensures p.aboutEn.None? ==> r.aboutEn == s.aboutEn
    ensures p.aboutAr.Some? ==> r.aboutAr == p.aboutAr.value
    ensures p.aboutAr.None? ==> r.aboutAr == s.aboutAr
    ensures p.actualPrice.Some? ==> r.actualPrice == p.actualPrice.value
    ensures p.actualPrice.None? ==> r.actualPrice == s.actualPrice
    ensures p.discountedPrice.Some? ==> r.discountedPrice == p.discountedPrice.value
    ensures p.discountedPrice.None? ==> r.discountedPrice == s.discountedPrice
    ensures p.maximumBookingPerSlot.Some? ==> r.maximumBookingPerSlot == p.maximumBookingPerSlot.value
    ensures p.maximumBookingPerSlot.None? ==> r.maximumBookingPerSlot == s.maximumBookingPerSlot
    ensures p.serviceImageEnUrl.Some? ==> r.serviceImageEnUrl == p.serviceImageEnUrl.value
    ensures p.serviceImageEnUrl.None? ==> r.serviceImageEnUrl == s.serviceImageEnUrl
    ensures p.serviceImageArUrl.Some? ==> r.serviceImageArUrl == p.serviceImageArUrl.value
    ensures p.serviceImageArUrl.None? ==> r.serviceImageArUrl == s.serviceImageArUrl
    ensures p.canRedeem.Some? ==> r.canRedeem == p.canRedeem.value
    ensures p.canRedeem.None? ==> r.canRedeem == s.canRedeem
  {
    Service(s.id, Or(p.nameEn, s.nameEn), Or(p.nameAr, s.nameAr), Or(p.categoryId, s.categoryId),
            Or(p.aboutEn, s.aboutEn), Or(p.aboutAr, s.aboutAr), Or(p.actualPrice, s.actualPrice),
            Or(p.discountedPrice, s.discountedPrice), Or(p.maximumBookingPerSlot, s.maximumBookingPerSlot),
            Or(p.serviceImageEnUrl, s.serviceImageEnUrl), Or(p.serviceImageArUrl, s.serviceImageArUrl),
            Or(p.canRedeem, s.canRedeem))
  }

  /** Patches combine: applying `p` then `q` is applying `q` over `p`. */
  function Then(p: ServicePatch, q: ServicePatch): ServicePatch {
    ServicePatch(
      if q.nameEn.Some? then q.nameEn else p.nameEn,
      if q.nameAr.Some? then q.nameAr else p.nameAr,
      if q.categoryId.Some? then q.categoryId else p.categoryId,
      if q.aboutEn.Some? then q.aboutEn else p.aboutEn,
      if q.aboutAr.Some? then q.aboutAr else p.aboutAr,
      if q.actualPrice.Some? then q.actualPrice else p.actualPrice,
      if q.discountedPrice.Some? then q.discountedPrice else p.discountedPrice,
      if q.maximumBookingPerSlot.Some? then q.maximumBookingPerSlot else p.maximumBookingPerSlot,
      if q.serviceImageEnUrl.Some? then q.serviceImageEnUrl else p.serviceImageEnUrl,
      if q.serviceImageArUrl.Some? then q.serviceImageArUrl else p.serviceImageArUrl,
      if q.canRedeem.Some? then q.canRedeem else p.canRedeem)
  }

  /** An all-undefined patch changes nothing, a patch applied twice is applied
      once, and two patches in a row are their combination. */
  lemma PatchLaws(s: Service, p: ServicePatch, q: ServicePatch)
    ensures ApplyPatch(s, EMPTY_PATCH) == s
    ensures ApplyPatch(ApplyPatch(s, p), p) == ApplyPatch(s, p)
    ensures ApplyPatch(ApplyPatch(s, p), q) == ApplyPatch(s, Then(p, q))
  {
  }

  /** Every row with the given id replaced by `row` (`UPDATE ... WHERE id = ?`). */
  function ReplaceById(services: seq<Service>, id: int, row: Service): (rs: seq<Service>)
    ensures |rs| == |services|
    ensures forall i :: 0 <= i < |services| ==>
              rs[i] == if services[i].id == id then row else services[i]
  {
    seq(|services|, i requires 0 <= i < |services| => if services[i].id == id then row else services[i])
  }

  /** The category an update leaves the service in: the new one when
      `category_id` is given, else the stored one. */
  function UpdateCategory(catalog: Catalog, stored: Service, p: ServicePatch): Option<ServiceCategory> {
    match p.categoryId
    case Some(c) => FindCategory(catalog.categories, c)
    case None => FindCategory(catalog.categories, stored.categoryId)
  }

  /** Whether `update` reaches its UPDATE statement: the service exists and a
      given `category_id` names a category. Only the lookups before it can
      stop it. */
  predicate WritesRow(catalog: Catalog, conn: Connection, id: int, p: ServicePatch) {
    && conn == Live
    && FindService(catalog.services, id).Some?
    && (p.categoryId.Some? ==> HasCategory(catalog.categories, p.categoryId.value))
  }

  /** `update`: look the service up, merge the patch, check the category, and
      write the merged row back; then build the view. The result is the catalog
      after the call and the reply. Any failure is INTERNAL_SERVER_ERROR, and
      the `rollback` of the catch undoes nothing, since no transaction was
      begun: a row written before a failure stays written. */
  function Update(catalog: Catalog, conn: Connection, id: int, p: ServicePatch)
    : (r: (Catalog, Result<ServiceView>))
    ensures r.1.Err? ==> r.1.error == InternalServerError
    ensures r.1.Ok? <==> conn == Live && FindService(catalog.services, id).Some?
                         && UpdateCategory(catalog, FindService(catalog.services, id).value, p).Some?
    ensures (conn == Live && FindService(catalog.services, id).Some? && p.categoryId.Some?
             && !HasCategory(catalog.categories, p.categoryId.value)) ==> r.1.Err?
    ensures r.0.categories == catalog.categories
    ensures !WritesRow(catalog, conn, id, p) ==> r.0 == catalog
    ensures WritesRow(catalog, conn, id, p) ==>
              var stored := FindService(catalog.services, id).value;
              && |r.0.services| == |catalog.services|
              && FindService(r.0.services, id) == Some(ApplyPatch(stored, p))
              && (forall i :: 0 <= i < |catalog.services| && catalog.services[i].id != id ==>
                    r.0.services[i] == catalog.services[i])
    ensures r.1.Ok? ==>
              && r.1.value.service == ApplyPatch(FindService(catalog.services, id).value, p)
              && r.1.value.category == UpdateCategory(catalog, FindService(catalog.services, id).value, p).value
              && r.1.value.category.id == r.1.value.service.categoryId
  {
    if conn.Broken? then (catalog, Err(InternalServerError))
    else match FindService(catalog.services, id)
      case None => (catalog, CatchAll(Err(ServiceNotFound)))
      case Some(stored) =>
        var merged := ApplyPatch(stored, p);
        if p.categoryId.Some? && !HasCategory(catalog.categories, p.categoryId.value) then
          (catalog, CatchAll(Err(InvalidServiceCategory)))
        else
          var services := ReplaceById(catalog.services, id, merged);
          assert FindService(services, id) == Some(merged) by {
            var x :| x in catalog.services && x.id == id;
            var i :| 0 <= i < |catalog.services| && catalog.services[i] == x;
            assert services[i] == merged;
            assert forall y :: y in services && y.id == id ==> y == merged;
          }
          var after := catalog.(services := services);
          match UpdateCategory(catalog, stored, p)
          // the stored category has vanished: the view is built from `undefined`
          // after the write, and what that throws becomes INTERNAL_SERVER_ERROR
          case None => (after, Err(InternalServerError))
          case Some(category) => (after, Ok(ServiceView(merged, category)))
  }

  /** An update with every argument undefined leaves the stored row as it
      was, and with primary-key ids the whole table, whether or not the call
      succeeds. */
  lemma EmptyUpdateChangesNothing(catalog: Catalog, conn: Connection, id: int)
    ensures var (_, reply) := Update(catalog, conn, id, EMPTY_PATCH);
            reply.Ok? ==> reply.value.service == FindService(catalog.services, id).value
    ensures UniqueServiceIds(catalog.services) ==> Update(catalog, conn, id, EMPTY_PATCH).0 == catalog
  {
  }

  /** An id larger than every id in the table, standing for the id the
      database gives a new service row. */
  function FreshId(services: seq<Service>): (id: int)
    ensures forall s :: s in services ==> s.id < id
  {
    if |services| == 0 then 1
    else
      var rest := FreshId(services[1..]);
      assert forall x :: x in services ==> x == services[0] || x in services[1..];
      if services[0].id + 1 > rest then services[0].id + 1 else rest
  }

  /** `create`: reject an unknown category, otherwise insert the row under a
      fresh id and return it with its category. */
  function Create(catalog: Catalog, conn: Connection, draft: Service): (r: Result<(Catalog, ServiceView)>)
    ensures r.Err? ==> r.error == InternalServerError
    ensures r.Ok? <==> conn == Live && HasCategory(catalog.categories, draft.categoryId)
    ensures r.Ok? ==>
              var (after, view) := r.value;
              && view.service == draft.(id := view.service.id)
              && (forall s :: s in catalog.services ==> s.id != view.service.id)
              && after == catalog.(services := catalog.services + [view.service])
              && view.category == FindCategory(catalog.categories, draft.categoryId).value
  {
    if conn.Broken? then Err(InternalServerError)
    else match FindCategory(catalog.categories, draft.categoryId)
      case None => CatchAll(Err(InvalidServiceCategory))
      case Some(category) =>
        var row := draft.(id := FreshId(catalog.services));
        Ok((catalog.(services := catalog.services + [row]), ServiceView(row, category)))
  }

  /** A created service appears at the end of `getAll`, with the view `create`
      returned, and nothing else in the listing changes. */
  lemma CreateThenGetAll(catalog: Catalog, draft: Service)
    requires UniqueCategoryIds(catalog.categories)
    requires Create(catalog, Live, draft).Ok?
    ensures var (after, view) := Create(catalog, Live, draft).value;
            GetAll(after, Live).value == GetAll(catalog, Live).value + [view]
  {
    var (after, view) := Create(catalog, Live, draft).value;
    var m := CategoryMap(catalog.categories);
    JoinAppend(catalog.services, [view.service], m);
    CategoryMapAgreesWithLookup(catalog.categories, draft.categoryId);
  }
}
